=== FILE: README.md ===
# Canvas node autofit, modelled in Dafny

This project models the autosizing routine of an Obsidian plugin that resizes canvas
text cards so they fit their rendered content. The routine is `resizeNode` in `main.ts`. It
has two passes:

- **Vertical pass (`'tb'`).** A fixed-point loop of at most ten rounds. Each round measures
  how far the card's height is from its content height. A textual card's height changes
  by that distance, which may be negative. An empty card snaps to a preset size. Each step is rendered and saved.
- **Horizontal pass (`'lr'`).** Under a temporary `1px` height style, a binary search of at
  most ten rounds looks for a narrower width over `[0, initialWidth]`. The chosen width is
  then validated against the scroll height seen at the initial width. It is rolled back
  when the check fails and saved otherwise. A `finally` clears the style.

The preset commands run the vertical pass, then the horizontal one. A separate command
reduces the width by one pixel.

Modules:

- `Canvas` (`canvas.dfy`): the node record and the host oracles. It also holds the
  constants (ten rounds, tolerance 0.5, bias 1, slack 0.1) and
  `Round`, which is JavaScript's `Math.round`.
- `HeightFit` (`height_fit.dfy`): one round of the vertical loop (`HeightRound`) and the
  loop itself (`FitHeight`).
- `WidthFit` (`width_fit.dfy`): the midpoint, the bracket update, the search loop, its
  bracket lemmas, and the full horizontal pass with validation, rollback and `finally`.
- `Commands` (`commands.dfy`): `reduceWidthAction` and the default tb-then-lr action.

A node is an immutable record with these fields:

- `text`: only its emptiness matters.
- `width`, `height`: exact reals.
- `heightStyle`: the preview's inline `style.height`.
- `stale`: a resize has happened that has not been rendered yet.
- `saves`: how many persistence saves were requested.

Everything the browser decides is a field of `Host`. Each field is an uninterpreted
function of the current node state:

- `isShown`
- `clientHeight`
- `scrollHeight`
- `throws(call, node)`: whether a host call throws an exception.

The loops therefore become small sequential state machines. They return traces: the
node at the start of each vertical round, and for each search round the bracket, the
midpoint and what was measured there. The contracts are stated over those traces.

## Model

| member | source | states |
|---|---|---|
| Canvas.Round | main.ts:39 | `Math.round`: the unique integer within half a unit of `x`, with halves going up: `x - 0.5 < r <= x + 0.5` |
| HeightFit.HeightRound | main.ts:15-27 | One vertical round. It settles exactly when both reads succeed and the absolute distance `scrollHeight(probed) - clientHeight + 1` is below 0.5; the node is then unchanged except that the style is `""`. A step for a textual node keeps the width and adds exactly the measured distance to the height. A step for an empty node sets width and height to the preset. A step leaves the style `""`, rendered, with one more save; any other outcome adds no save. A throw while reading scrollHeight leaves the `1px` probe in place. Without faults the round never aborts |
| HeightFit.FitHeight | main.ts:11-29 | Hidden preview: nothing changes and no save is made, and hiding is the only way to get that exit. Otherwise there are at most 10 steps (11 trace entries), and consecutive trace entries are linked by a stepping round. Convergence means the last round settled; exhaustion means exactly 10 steps. Saves equal steps. A textual node's width never changes, and each step adds that round's distance to the height. An empty node that stepped is `size x size`. The style is `""` on normal exit. A node that is already settled converges in round one. A converged node is a fixed point when at least one step ran or its inline style was already `""`; a second run then changes nothing. When round one settles on a node whose style was something else, the second run measures under `""` and may step. Without faults the pass never throws |
| WidthFit.Midpoint | main.ts:39 | The rounded midpoint is a whole number. While `min` is whole it lies in `[min, max]`; for an inverted bracket it is at most `min` |
| WidthFit.Narrow | main.ts:43-47 | An overflowing probe sets `min` to the midpoint and keeps `max`; otherwise `min` is kept and `max` becomes the midpoint. A whole `min` stays whole. The new bracket lies inside the old one and is at most half as wide plus 0.5. An inverted bracket becomes narrower than 1 |
| WidthFit.SearchWidth | main.ts:35-52 | The search starts from `[0, initialWidth]` and runs at most 10 rounds, at least one if nothing threw. Each round tries the rounded midpoint and compares the scroll height there, rendered, with the target. Rounds chain through `Narrow`. The first round always runs, even on a bracket narrower than 1; every round after the first began on a bracket at least 1 wide, and the loop stops on `max - min < 1` or after 10 rounds. With `initialWidth >= 0` the final bracket and the node width stay in `[0, initialWidth]`. A negative width gives at most one round. Height, style and saves are untouched |
| WidthFit.BracketHalves | main.ts:38-52 | In a search from `[0, w]` with `w >= 0`, round `k` has a whole lower bound, stays in `[0, w]`, and its bracket is at most `w / 2^k + 1` wide |
| WidthFit.SearchInvariants | main.ts:35-52 | For `initialWidth >= 0`, every round keeps `0 <= min <= mid <= max <= initialWidth`. No round widens the bracket, including the last narrowing, and the final bracket stays within `[0, initialWidth]` |
| WidthFit.FitWidth | main.ts:31-64 | Hidden preview: nothing changes. Otherwise the style is `""` on every exit, including every exception path. The search starts from `[0, initialWidth]`, ends on `max - min < 1` or after 10 rounds, and every round after the first began on a bracket at least 1 wide. Every probe is measured under the `1px` style against the baseline (scroll height at the initial width + 0.1). On accept, the validation at the chosen geometry does not exceed the baseline. The width is then `max` (text) or the preset (empty), the height is unchanged (text) or the preset (empty), and exactly one save is made. On rollback, the validation exceeds the baseline, the width returns to `initialWidth`, the height keeps the value set at line 54, and no save is made. A textual node's height never changes. With `initialWidth >= 0`, a textual node's width never grows. Without faults the pass ends in accept or rollback |
| Commands.ReduceWidth | main.ts:69-73 | On success the width is exactly `width - 1`, the height is unchanged, the resize is rendered, and one save is made. On a throw no save is made. Without faults it succeeds |
| Commands.ReduceWidthGoesNegative | main.ts:70 | A zero-width node becomes width -1; nothing clamps it |
| Commands.ReduceWidthIgnoresPreview | main.ts:69-73 | The result does not depend on visibility or measurements, only on which calls throw |
| Commands.DefaultAction | main.ts:76-79 | The vertical pass, then the horizontal pass on the node it left. A hidden preview is a no-op. The returned vertical trace is linked by stepping rounds, and the node it left (`tall`) is the settled or the 10th-step node. The width search starts from `[0, tall.width]`. Every probe is measured under the `1px` style against `tall`'s baseline, and every round after the first began on a bracket at least 1 wide. The search ends on `max - min < 1` or after 10 rounds. Accept means the validation at the chosen geometry did not exceed the baseline; the final width is then `max` (text) or `size` (empty), and the height is `tall`'s height (text) or `size` (empty). Rollback means the validation exceeded the baseline; the width is then `tall`'s width, with the same height. A textual node ends with the height the vertical pass set and, for non-negative widths, never gets wider. When no host call throws, an empty node ends `size x size` if the vertical pass stepped or the width pass accepted; an exception in the width pass can leave it at the last probed width. After both passes the style is `""` and saves = vertical steps (at most 10) + 1 if the width was accepted. Without faults nothing throws |

## Left out

- DOM layout, `isShown()`, `clientHeight`, `scrollHeight` and `render()` are opaque browser behaviour. They are oracle functions of the node state, so nothing is claimed about the height loop converging or the found width being minimal.
- `isShown()` and the inline style assignments are taken never to throw. The other host calls (`clientHeight` and `scrollHeight` reads, `resize`, `render`, `requestSave`) may throw, as the `throws` oracle decides.
- `node.resize` is taken to set exactly the requested width and height. Any clamping the host might do is not part of this model.
- `requestSave` is only a counter on the node. The persistence itself is host I/O.
- Plugin lifecycle, command registration, `checkCallback`, view lookup and iteration over the selection (main.ts:75-110) are host UI glue. The preset sizes 32, 17 and 3 (main.ts:3-5) belong to that command table; the model takes the size as a parameter. An empty selection does nothing (main.ts:92); this is not modelled.
- Widths and heights are exact reals, so IEEE double rounding is not modelled. The only rounding the code performs is `Math.round`, which is modelled exactly.
- HeightFit.FitHeight: does not state that the height loop converges, because that depends on how the browser reflows text.

## Behaviour worth knowing

The model keeps each of these behaviours of main.ts as it is:

- **No clamping at zero.** Nothing clamps a width or height at zero. `reduceWidthAction` takes a zero width to -1 (main.ts:70, `Commands.ReduceWidthGoesNegative`). A vertical step adds whatever distance the browser reports (main.ts:24).
- **Negative starting width.** With a negative starting width the binary search runs one round, and the width it then chooses can be larger than the starting width (main.ts:35-54).
- **Validation without a render.** No `render()` runs between the resize at main.ts:54 and the measurement at main.ts:56. The model records this as `stale` in `Validated`. An accepted width is never rendered by the pass (main.ts:59-61).
- **Style cleared, not restored.** The `finally` sets the style to `""` (main.ts:63), whatever the value was before main.ts:31. The vertical pass has no `finally` at all: an exception while reading `scrollHeight` at main.ts:17 leaves the `1px` style in place (`HeightFit.HeightRound`).
- **Empty nodes.** When no host call throws, an empty node ends `size x size` whenever the vertical pass stepped (main.ts:23-24) or the width pass accepted (main.ts:54, 60). A width pass that rolls back after a step restores width `size`, because that is `initialWidth` (main.ts:34, 57). Among the runs without an exception, only an empty node that the vertical pass left untouched and whose width pass rolled back keeps its original width, with height `size`. An exception inside the width pass leaves the node at whatever width it was last resized to, for example the first probe `Math.round(size / 2)` (main.ts:39-43, 54); the `finally` at main.ts:63 only clears the style.

=== FILE: canvas.dfy ===
/**
  The state a canvas-node resize works on, and the host it talks to.

  A canvas node is a plain record: its geometry, the inline height style of its
  preview element, whether a resize is still waiting to be rendered, and how many
  persistence saves were requested on its behalf. Everything the browser decides
  (layout, visibility, exceptions thrown by host calls) is an oracle: a function of
  the node state that the resize code reads but cannot see into.
 */
module Canvas {

  /** Both passes give up after this many rounds. */
  const MaxRounds: nat := 10

  /** The height pass stops once the measured distance is below this. */
  const Tolerance: real := 0.5

  /** Added to every height distance to absorb sub-pixel measurement error. */
  const DistanceBias: real := 1.0

  /** Added to the width pass's baseline scroll height so that ties do not count as overflow. */
  const OverflowSlack: real := 0.1

  /** Inline height styles of the preview element: the probe value and "unset". */
  const ProbeHeight: string := "1px"
  const AutoHeight: string := ""

  datatype Node = Node(
    text: string,         // the card's text; only its emptiness matters
    width: real,
    height: real,
    heightStyle: string,  // inline style.height of the preview element
    stale: bool,          // a resize happened that has not been rendered yet
    saves: nat            // persistence saves requested so far
  )

  /** A node is textual when its text is non-empty (main.ts:9). */
  predicate Textual(n: Node) {
    |n.text| > 0
  }

  /** The host calls that may throw. */
  datatype Call = ReadClientHeight | ReadScrollHeight | Resize | Render | RequestSave

  /**
    The browser and the canvas host, seen from the resize code. Each field is an
    uninterpreted function of the current node state.
   */
  datatype Host = Host(
    isShown: Node -> bool,
    clientHeight: Node -> real,
    scrollHeight: Node -> real,
    throws: (Call, Node) -> bool
  )

  /** A host none of whose calls ever throws. */
  ghost predicate NoFaults(host: Host) {
    forall c, m :: !host.throws(c, m)
  }

  /** `node.resize({width, height})`: new geometry, not rendered yet. */
  function Resized(n: Node, width: real, height: real): Node {
    n.(width := width, height := height, stale := true)
  }

  /** `node.render()`: the pending geometry reaches the preview. */
  function Rendered(n: Node): Node {
    n.(stale := false)
  }

  /** `node.canvas.requestSave()`. */
  function Saved(n: Node): Node {
    n.(saves := n.saves + 1)
  }

  function Abs(x: real): real {
    if x < 0.0 then -x else x
  }

  /** A real number with no fractional part. */
  predicate Whole(x: real) {
    x.Floor as real == x
  }

  /**
    JavaScript's `Math.round`: the integer nearest to `x`, halves rounded
    towards positive infinity.
   */
  function Round(x: real): (r: int)
    ensures x - 0.5 < r as real <= x + 0.5
  {
    (x + 0.5).Floor
  }

  /**
    How far the node's height is from fitting its content: the content height
    the preview reports under the 1px probe, minus its visible height, plus the
    bias (main.ts:15-19).
   */
  function Distance(host: Host, n: Node): real {
    host.scrollHeight(n.(heightStyle := ProbeHeight)) - host.clientHeight(n) + DistanceBias
  }
}

=== FILE: commands.dfy ===
/**
  What a command does to one selected node: the three preset commands run the
  vertical pass and then the horizontal one (main.ts:76-79); the reduce-width
  command shrinks the node by one pixel (main.ts:69-73).
 */
module Commands {
  import opened Canvas
  import opened HeightFit
  import opened WidthFit

  /** The result of a host action that may throw part-way. */
  datatype Attempt = Done(node: Node) | Failed(node: Node)

  /** How the default action ended. */
  datatype FitOutcome =
    | Skipped                                      // the preview is hidden: nothing ran
    | Fitted(height: HeightExit, width: WidthExit, steps: nat)
    | Threw                                        // an exception left one of the passes

  /**
    reduceWidthAction (main.ts:69-73): one pixel narrower, same height, rendered
    and saved. It neither looks at the preview nor clamps at zero.
   */
  function ReduceWidth(host: Host, n: Node): (r: Attempt)
    ensures r.node.height == n.height && r.node.text == n.text && r.node.heightStyle == n.heightStyle
    ensures r.Done? ==> r.node.width == n.width - 1.0 && r.node.saves == n.saves + 1 && !r.node.stale
    ensures r.Failed? ==> r.node.saves == n.saves && (r.node.width == n.width || r.node.width == n.width - 1.0)
    ensures NoFaults(host) ==> r.Done?
  {
    if host.throws(Resize, n) then Failed(n)
    else
      var resized := Resized(n, n.width - 1.0, n.height);
      if host.throws(Render, resized) then Failed(resized)
      else
        var rendered := Rendered(resized);
        if host.throws(RequestSave, rendered) then Failed(rendered)
        else Done(Saved(rendered))
  }

  /** A host on which nothing throws, nothing is shown, and every measurement reads zero. */
  function QuietHost(): (host: Host)
    ensures NoFaults(host)
  {
    Host(_ => false, _ => 0.0, _ => 0.0, (_, _) => false)
  }

  /** Reducing a zero-width node succeeds and leaves it at width -1: no clamp keeps widths non-negative. */
  lemma ReduceWidthGoesNegative(n: Node)
    requires n.width == 0.0
    ensures ReduceWidth(QuietHost(), n) == Done(n.(width := -1.0, stale := false, saves := n.saves + 1))
  {
  }

  /**
    Reducing the width is independent of the preview: two hosts whose calls
    throw alike give the same result, whatever each reports as shown or measured.
   */
  lemma ReduceWidthIgnoresPreview(h1: Host, h2: Host, n: Node)
    requires forall c, m :: h1.throws(c, m) == h2.throws(c, m)
    ensures ReduceWidth(h1, n) == ReduceWidth(h2, n)
  {
  }

  /**
    The default action of the preset commands (main.ts:76-79): the vertical pass,
    then, unless it threw, the horizontal pass on the node it left. `trace` is the
    vertical pass's trace, `tall` the node it left, and `probes` the rounds of the
    width search that followed.
   */
  method DefaultAction(host: Host, n0: Node, size: real)
    returns (n: Node, outcome: FitOutcome, trace: seq<Node>, tall: Node, probes: seq<Probe>)
    ensures outcome == Skipped <==> !host.isShown(n0)
    ensures outcome == Skipped ==> n == n0
    ensures outcome != Skipped ==> 1 <= |trace| <= MaxRounds + 1 && trace[0] == n0
    ensures forall k :: 0 <= k < |trace| - 1 ==> HeightRound(host, trace[k], size) == Stepped(trace[k + 1])
    ensures outcome.Fitted? ==> outcome.steps == |trace| - 1 && outcome.steps <= MaxRounds
    ensures outcome.Fitted? ==> outcome.height == Converged || outcome.height == Exhausted
    ensures outcome.Fitted? && outcome.height == Converged ==> HeightRound(host, trace[|trace| - 1], size) == Settled(tall)
    ensures outcome.Fitted? && outcome.height == Exhausted ==> |trace| == MaxRounds + 1 && tall == trace[MaxRounds]
    ensures outcome.Fitted? ==> n.heightStyle == AutoHeight
    ensures outcome.Fitted? ==> n.saves == tall.saves + (if outcome.width == Accepted then 1 else 0)
    ensures outcome.Fitted? ==> n.saves == n0.saves + outcome.steps + (if outcome.width == Accepted then 1 else 0)
    ensures outcome.Fitted? && outcome.width == WidthHidden ==> n == tall
    ensures outcome.Fitted? && (outcome.width == Accepted || outcome.width == RolledBack) ==>
      1 <= |probes| <= MaxRounds && probes[0].before == Bracket(0.0, tall.width) && Chained(probes)
    ensures outcome.Fitted? && (outcome.width == Accepted || outcome.width == RolledBack) ==>
      Span(Current(probes, tall.width)) < 1.0 || |probes| == MaxRounds
    ensures outcome.Fitted? ==> forall k :: 0 < k < |probes| ==> Span(probes[k].before) >= 1.0
    ensures outcome.Fitted? ==> forall k :: 0 <= k < |probes| ==>
      Measured(host, tall.(heightStyle := ProbeHeight), Baseline(host, tall), probes[k])
    ensures outcome.Fitted? && outcome.width == Accepted ==>
      host.scrollHeight(Validated(tall, Current(probes, tall.width), size)) <= Baseline(host, tall)
      && n.width == ChosenWidth(tall, Current(probes, tall.width), size) && n.height == ChosenHeight(tall, size)
    ensures outcome.Fitted? && outcome.width == RolledBack ==>
      host.scrollHeight(Validated(tall, Current(probes, tall.width), size)) > Baseline(host, tall)
      && n.width == tall.width && n.height == ChosenHeight(tall, size)
    ensures tall.text == n0.text && n.text == n0.text
    ensures !Textual(n0) && outcome.Fitted? && outcome.steps > 0 ==>
      tall.width == size && tall.height == size && n.width == size && n.height == size
    ensures Textual(n0) && outcome.Fitted? ==> n.height == tall.height && tall.width == n0.width
    ensures Textual(n0) && n0.width >= 0.0 ==> 0.0 <= n.width <= n0.width
    ensures !Textual(n0) && outcome.Fitted? && outcome.width == Accepted ==> n.width == size && n.height == size
    ensures !Textual(n0) && outcome.Fitted? && outcome.width == RolledBack ==>
      n.height == size && (n.width == n0.width || n.width == size)
    ensures NoFaults(host) ==> outcome != Threw
  {
    var heightExit;
    probes := [];
    tall, heightExit, trace := FitHeight(host, n0, size);
    n := tall;
    if heightExit == HeightHidden {
      return n, Skipped, trace, tall, probes;
    }
    if heightExit == HeightThrew {
      return n, Threw, trace, tall, probes;
    }
    var widthExit, b;
    n, widthExit, b, probes := FitWidth(host, tall, size);
    if widthExit == WidthThrew {
      return n, Threw, trace, tall, probes;
    }
    outcome := Fitted(heightExit, widthExit, |trace| - 1);
  }
}

=== FILE: height_fit.dfy ===
/**
  The vertical ('tb') pass of resizeNode: a bounded fixed-point loop that grows a
  textual node's height by the measured distance, or snaps an empty node to the
  preset size, until the distance is within tolerance (main.ts:13-29).
 */
module HeightFit {
  import opened Canvas

  /** How one round of the loop ended. */
  datatype RoundResult =
    | Settled(node: Node)   // distance within tolerance: the loop breaks
    | Stepped(node: Node)   // node resized, rendered and saved: next round
    | Aborted(node: Node)   // a host call threw; the exception leaves the pass

  /** How the whole pass ended. */
  datatype HeightExit = HeightHidden | Converged | Exhausted | HeightThrew

  /**
    One round of the loop (main.ts:15-27). The pass sets the 1px probe around the
    scroll-height read but has no `finally`, so a throw from that read leaves the
    probe in place.
   */
  function HeightRound(host: Host, n: Node, size: real): (r: RoundResult)
    ensures r.node.text == n.text
    ensures r.Settled? <==>
      !host.throws(ReadClientHeight, n) && !host.throws(ReadScrollHeight, n.(heightStyle := ProbeHeight))
      && Abs(Distance(host, n)) < Tolerance
    ensures r.Settled? ==> r.node == n.(heightStyle := AutoHeight)
    ensures r.Stepped? ==>
      Abs(Distance(host, n)) >= Tolerance && r.node.saves == n.saves + 1
      && r.node.heightStyle == AutoHeight && !r.node.stale
    ensures r.Stepped? && Textual(n) ==> r.node.width == n.width && r.node.height == n.height + Distance(host, n)
    ensures r.Stepped? && !Textual(n) ==> r.node.width == size && r.node.height == size
    ensures !r.Stepped? ==> r.node.saves == n.saves
    ensures Textual(n) ==> r.node.width == n.width
    ensures !host.throws(ReadClientHeight, n) && host.throws(ReadScrollHeight, n.(heightStyle := ProbeHeight)) ==>
      r == Aborted(n.(heightStyle := ProbeHeight))
    ensures NoFaults(host) ==> !r.Aborted?
  {
    if host.throws(ReadClientHeight, n) then Aborted(n)
    else
      var probed := n.(heightStyle := ProbeHeight);
      if host.throws(ReadScrollHeight, probed) then Aborted(probed)
      else
        var d := Distance(host, n);
        var m := probed.(heightStyle := AutoHeight);
        if Abs(d) < Tolerance then Settled(m)
        else
          var width := if Textual(n) then n.width else size;
          var height := if Textual(n) then n.height + d else size;
          if host.throws(Resize, m) then Aborted(m)
          else
            var resized := Resized(m, width, height);
            if host.throws(Render, resized) then Aborted(resized)
            else
              var rendered := Rendered(resized);
              if host.throws(RequestSave, rendered) then Aborted(rendered)
              else Stepped(Saved(rendered))
  }

  /**
    The whole vertical pass (main.ts:11-29). `trace` holds the node at the start
    of every round that ran; each round but the last stepped to the next entry.
   */
  method FitHeight(host: Host, n0: Node, size: real) returns (n: Node, exit: HeightExit, trace: seq<Node>)
    ensures exit == HeightHidden <==> !host.isShown(n0)
    ensures exit == HeightHidden ==> n == n0 && trace == []
    ensures exit != HeightHidden ==> 1 <= |trace| <= MaxRounds + 1 && trace[0] == n0
    ensures forall k :: 0 <= k < |trace| - 1 ==> HeightRound(host, trace[k], size) == Stepped(trace[k + 1])
    ensures exit == Converged ==> HeightRound(host, trace[|trace| - 1], size) == Settled(n)
    ensures exit == HeightThrew ==> HeightRound(host, trace[|trace| - 1], size) == Aborted(n)
    ensures exit == Converged || exit == HeightThrew ==> |trace| <= MaxRounds
    ensures exit == Exhausted ==> |trace| == MaxRounds + 1 && n == trace[MaxRounds]
    ensures exit != HeightHidden ==> n.saves == n0.saves + |trace| - 1
    ensures n.text == n0.text
    ensures Textual(n0) ==> n.width == n0.width
    ensures forall k :: 0 <= k < |trace| - 1 && Textual(n0) ==> trace[k + 1].height == trace[k].height + Distance(host, trace[k])
    ensures !Textual(n0) && |trace| > 1 ==> n.width == size && n.height == size
    ensures exit == Converged || exit == Exhausted ==> n.heightStyle == AutoHeight
    ensures host.isShown(n0) && HeightRound(host, n0, size).Settled? ==>
      exit == Converged && |trace| == 1 && n == n0.(heightStyle := AutoHeight)
    ensures exit == Converged && (|trace| > 1 || n0.heightStyle == AutoHeight) ==> HeightRound(host, n, size) == Settled(n)
    ensures NoFaults(host) ==> exit != HeightThrew
  {
    if !host.isShown(n0) {
      return n0, HeightHidden, [];
    }
    n := n0;
    trace := [n0];
    while |trace| <= MaxRounds
      invariant 1 <= |trace| <= MaxRounds + 1 && trace[0] == n0
      invariant n == trace[|trace| - 1]
      invariant forall k :: 0 <= k < |trace| - 1 ==> HeightRound(host, trace[k], size) == Stepped(trace[k + 1])
      invariant forall k :: 0 <= k < |trace| - 1 && Textual(n0) ==> trace[k + 1].height == trace[k].height + Distance(host, trace[k])
      invariant |trace| > 1 ==> HeightRound(host, n0, size).Stepped?
      invariant n.saves == n0.saves + |trace| - 1
      invariant n.text == n0.text
      invariant Textual(n0) ==> n.width == n0.width
      invariant !Textual(n0) && |trace| > 1 ==> n.width == size && n.height == size
      invariant |trace| > 1 ==> n.heightStyle == AutoHeight
    {
      match HeightRound(host, n, size)
      case Settled(m) =>
        n := m;
        exit := Converged;
        return;
      case Aborted(m) =>
        n := m;
        exit := HeightThrew;
        return;
      case Stepped(m) =>
        n := m;
        trace := trace + [m];
    }
    exit := Exhausted;
  }
}

=== FILE: width_fit.dfy ===
/**
  The horizontal ('lr') pass of resizeNode: a bounded binary search over
  [0, initialWidth] for a narrower width that does not make the content overflow
  more than at the initial width, followed by a validation that rolls the width
  back when it fails. The 1px height probe is set before the search and cleared
  in a `finally` (main.ts:31-64).
 */
module WidthFit {
  import opened Canvas

  /** The search interval `[min, max]` of main.ts:35-36. */
  datatype Bracket = Bracket(lo: real, hi: real)

  /** One round of the search: the bracket it started from, the width it tried, and what it saw. */
  datatype Probe = Probe(before: Bracket, mid: real, overflowed: bool)

  /** How the pass ended. */
  datatype WidthExit = WidthHidden | Accepted | RolledBack | WidthThrew

  function Span(b: Bracket): real {
    b.hi - b.lo
  }

  /**
    The width tried in a round, `Math.round((min + max) / 2)` (main.ts:39). As
    long as the lower bound is a whole number the rounded midpoint stays inside
    the bracket; when the bracket is inverted it does not exceed the lower bound.
   */
  function Midpoint(b: Bracket): (mid: real)
    ensures Whole(mid)
    ensures Whole(b.lo) && b.lo <= b.hi ==> b.lo <= mid <= b.hi
    ensures Whole(b.lo) && b.hi < b.lo ==> mid <= b.lo
  {
    var x := (b.lo + b.hi) / 2.0;
    RoundNear(x, b.lo.Floor);
    Round(x) as real
  }

  /** Rounding a value that lies in `[l, l + 1/2)` for a whole `l` gives `l`; anything at least `l` rounds to at least `l`. */
  lemma RoundNear(x: real, l: int)
    ensures x >= l as real ==> Round(x) >= l
    ensures x < l as real + 0.5 ==> Round(x) <= l
  {
  }

  /**
    The bracket after a round (main.ts:43-47): an overflowing probe means the
    width was too narrow, so the lower bound moves up to it; otherwise the upper
    bound moves down to it. The bracket never widens and at least halves, up to
    the half pixel the rounding adds; an inverted bracket collapses below one
    pixel at once.
   */
  function Narrow(b: Bracket, overflowed: bool): (r: Bracket)
    ensures overflowed ==> r.lo == Midpoint(b) && r.hi == b.hi
    ensures !overflowed ==> r.lo == b.lo && r.hi == Midpoint(b)
    ensures Whole(b.lo) ==> Whole(r.lo)
    ensures Whole(b.lo) && b.lo <= b.hi ==>
      b.lo <= r.lo <= r.hi <= b.hi && Span(r) <= Span(b) / 2.0 + 0.5
    ensures Whole(b.lo) && b.hi < b.lo ==> Span(r) < 1.0
  {
    var mid := Midpoint(b);
    assert (b.lo + b.hi) / 2.0 - 0.5 < mid <= (b.lo + b.hi) / 2.0 + 0.5;
    if overflowed then Bracket(mid, b.hi) else Bracket(b.lo, mid)
  }

  /** Consecutive rounds of a search: each starts from the bracket the previous one left. */
  predicate Chained(probes: seq<Probe>) {
    forall k :: 0 <= k < |probes| - 1 ==> probes[k + 1].before == Narrow(probes[k].before, probes[k].overflowed)
  }

  /** `w / 2^k`: what `k` exact halvings leave of `w`. */
  function Halved(w: real, k: nat): real {
    if k == 0 then w else Halved(w, k - 1) / 2.0
  }

  /** The bracket in force after `probes`, for a search started from `[0, w]`. */
  function Current(probes: seq<Probe>, w: real): Bracket {
    if |probes| == 0 then Bracket(0.0, w)
    else Narrow(probes[|probes| - 1].before, probes[|probes| - 1].overflowed)
  }

  /** What round `p` did: it tried the rounded midpoint and compared the scroll height there with `target`. */
  predicate Measured(host: Host, n0: Node, target: real, p: Probe) {
    && p.mid == Midpoint(p.before)
    && p.overflowed == (host.scrollHeight(n0.(width := p.mid, stale := false)) > target)
  }

  /**
    The binary search of main.ts:35-52 on a node whose preview carries the probe
    style. Every round resizes to the midpoint, renders, and compares the scroll
    height with `target`; the loop runs at most ten rounds and stops early once
    the bracket is narrower than one pixel.
   */
  method SearchWidth(host: Host, n0: Node, target: real) returns (n: Node, b: Bracket, probes: seq<Probe>, threw: bool)
    ensures |probes| <= MaxRounds
    ensures !threw ==> 1 <= |probes| && (Span(b) < 1.0 || |probes| == MaxRounds)
    ensures |probes| > 0 ==> probes[0].before == Bracket(0.0, n0.width)
    ensures Chained(probes)
    ensures forall k :: 0 <= k < |probes| ==> Measured(host, n0, target, probes[k])
    ensures forall k :: 0 < k < |probes| ==> Span(probes[k].before) >= 1.0
    ensures b == Current(probes, n0.width)
    ensures n0.width >= 0.0 ==> 0.0 <= b.lo <= b.hi <= n0.width && 0.0 <= n.width <= n0.width
    ensures n0.width < 0.0 ==> |probes| <= 1
    ensures n.text == n0.text && n.height == n0.height && n.heightStyle == n0.heightStyle && n.saves == n0.saves
    ensures !threw ==> n == n0.(width := probes[|probes| - 1].mid, stale := false)
    ensures NoFaults(host) ==> !threw
  {
    n := n0;
    b := Bracket(0.0, n0.width);
    probes := [];
    threw := false;
    while |probes| < MaxRounds
      invariant |probes| <= MaxRounds
      invariant |probes| > 0 ==> probes[0].before == Bracket(0.0, n0.width)
      invariant b == Current(probes, n0.width)
      invariant |probes| == 0 ==> n == n0
      invariant |probes| > 0 ==> Span(b) >= 1.0 && n == n0.(width := probes[|probes| - 1].mid, stale := false)
      invariant Chained(probes)
      invariant forall k :: 0 <= k < |probes| ==> Measured(host, n0, target, probes[k])
      invariant forall k :: 0 < k < |probes| ==> Span(probes[k].before) >= 1.0
      invariant Whole(b.lo)
      invariant n0.width >= 0.0 ==> 0.0 <= b.lo <= b.hi <= n0.width && 0.0 <= n.width <= n0.width
      invariant n0.width < 0.0 ==> |probes| == 0
      invariant n.text == n0.text && n.height == n0.height && n.heightStyle == n0.heightStyle && n.saves == n0.saves
    {
      var mid := Midpoint(b);
      if host.throws(Resize, n) {
        threw := true;
        return;
      }
      n := Resized(n, mid, n.height);
      if host.throws(Render, n) {
        threw := true;
        return;
      }
      n := Rendered(n);
      if host.throws(ReadScrollHeight, n) {
        threw := true;
        return;
      }
      var overflowed := host.scrollHeight(n) > target;
      probes := probes + [Probe(b, mid, overflowed)];
      b := Narrow(b, overflowed);
      if Span(b) < 1.0 {
        break;
      }
    }
  }

  /**
    Round `k` of a search started from `[0, w]` with `w >= 0` works inside
    `[0, w]` with a whole lower bound, and its bracket is at most `w / 2^k + 1`
    wide: every round halves it, up to the half pixel the rounding adds.
   */
  lemma {:induction false} BracketHalves(probes: seq<Probe>, w: real, k: nat)
    requires Chained(probes) && 0 <= k < |probes|
    requires probes[0].before == Bracket(0.0, w) && w >= 0.0
    ensures Whole(probes[k].before.lo) && 0.0 <= probes[k].before.lo <= probes[k].before.hi <= w
    ensures Span(probes[k].before) <= Halved(w, k) + 1.0
  {
    if k > 0 {
      BracketHalves(probes, w, k - 1);
      var prev := probes[k - 1].before;
      assert probes[k].before == Narrow(prev, probes[k - 1].overflowed);
      assert Span(probes[k].before) <= Span(prev) / 2.0 + 0.5;
    }
  }

  /**
    The bracket invariants of the search (main.ts:35-52), for a non-negative
    initial width: every round keeps `0 <= min <= mid <= max <= initialWidth`,
    no round widens the bracket, and the bracket left behind stays inside it too.
   */
  lemma SearchInvariants(host: Host, n0: Node, target: real, probes: seq<Probe>)
    requires Chained(probes) && |probes| > 0 && probes[0].before == Bracket(0.0, n0.width) && n0.width >= 0.0
    requires forall k :: 0 <= k < |probes| ==> Measured(host, n0, target, probes[k])
    ensures forall k :: 0 <= k < |probes| ==>
      0.0 <= probes[k].before.lo <= probes[k].mid <= probes[k].before.hi <= n0.width
    ensures forall k :: 0 < k < |probes| ==> Span(probes[k].before) <= Span(probes[k - 1].before)
    ensures 0.0 <= Current(probes, n0.width).lo <= Current(probes, n0.width).hi <= n0.width
    ensures Span(Current(probes, n0.width)) <= Span(probes[|probes| - 1].before)
  {
    forall k | 0 <= k < |probes|
      ensures 0.0 <= probes[k].before.lo <= probes[k].mid <= probes[k].before.hi <= n0.width
      ensures Span(Narrow(probes[k].before, probes[k].overflowed)) <= Span(probes[k].before)
      ensures 0.0 <= Narrow(probes[k].before, probes[k].overflowed).lo <= Narrow(probes[k].before, probes[k].overflowed).hi <= n0.width
    {
      BracketHalves(probes, n0.width, k);
      assert Measured(host, n0, target, probes[k]);
    }
    forall k | 0 < k < |probes|
      ensures Span(probes[k].before) <= Span(probes[k - 1].before)
    {
      assert probes[k].before == Narrow(probes[k - 1].before, probes[k - 1].overflowed);
    }
  }

  /** The node's geometry chosen at main.ts:54: the search's upper bound for text, the preset otherwise. */
  function ChosenWidth(n: Node, b: Bracket, size: real): real {
    if Textual(n) then b.hi else size
  }

  function ChosenHeight(n: Node, size: real): real {
    if Textual(n) then n.height else size
  }

  /**
    The node as the validation at main.ts:56 measures it: at the chosen
    geometry, under the probe style, with the resize of main.ts:54 not rendered.
   */
  function Validated(n: Node, b: Bracket, size: real): Node {
    n.(width := ChosenWidth(n, b, size), height := ChosenHeight(n, size), stale := true, heightStyle := ProbeHeight)
  }

  /** The scroll height the pass compares against: the one at the initial width, plus slack (main.ts:33). */
  function Baseline(host: Host, n: Node): real {
    host.scrollHeight(n.(heightStyle := ProbeHeight)) + OverflowSlack
  }

  /**
    The whole horizontal pass (main.ts:11-12, 31-64). The try block is the nested
    conditional; every exception leaves it early, and the `finally` assignment
    after it runs on every path that got past the visibility check.
   */
  method FitWidth(host: Host, n0: Node, size: real) returns (n: Node, exit: WidthExit, b: Bracket, probes: seq<Probe>)
    ensures exit == WidthHidden <==> !host.isShown(n0)
    ensures exit == WidthHidden ==> n == n0
    ensures exit != WidthHidden ==> n.heightStyle == AutoHeight
    ensures n.text == n0.text
    ensures Textual(n0) ==> n.height == n0.height
    ensures exit == Accepted || exit == RolledBack ==>
      1 <= |probes| <= MaxRounds && probes[0].before == Bracket(0.0, n0.width) && Chained(probes)
      && b == Current(probes, n0.width) && (Span(b) < 1.0 || |probes| == MaxRounds)
    ensures forall k :: 0 < k < |probes| ==> Span(probes[k].before) >= 1.0
    ensures forall k :: 0 <= k < |probes| ==> Measured(host, n0.(heightStyle := ProbeHeight), Baseline(host, n0), probes[k])
    ensures exit == Accepted ==>
      host.scrollHeight(Validated(n0, b, size)) <= Baseline(host, n0)
      && n == Validated(n0, b, size).(heightStyle := AutoHeight, saves := n0.saves + 1)
    ensures exit == RolledBack ==>
      host.scrollHeight(Validated(n0, b, size)) > Baseline(host, n0)
      && n == n0.(height := ChosenHeight(n0, size), stale := false, heightStyle := AutoHeight)
    ensures exit != Accepted ==> n.saves == n0.saves
    ensures n0.width >= 0.0 && Textual(n0) ==> 0.0 <= n.width <= n0.width
    ensures NoFaults(host) && host.isShown(n0) ==> exit == Accepted || exit == RolledBack
  {
    b := Bracket(0.0, n0.width);
    probes := [];
    if !host.isShown(n0) {
      return n0, WidthHidden, b, probes;
    }
    n := n0.(heightStyle := ProbeHeight);
    exit := WidthThrew;
    // try
    if !host.throws(ReadScrollHeight, n) {
      var target := host.scrollHeight(n) + OverflowSlack;
      var initialWidth := n.width;
      var threw;
      n, b, probes, threw := SearchWidth(host, n, target);
      if !threw {
        var width := ChosenWidth(n, b, size);
        var height := ChosenHeight(n, size);
        if !host.throws(Resize, n) {
          n := Resized(n, width, height);
          if !host.throws(ReadScrollHeight, n) {
            if host.scrollHeight(n) > target {
              if !host.throws(Resize, n) {
                n := Resized(n, initialWidth, n.height);
                if !host.throws(Render, n) {
                  n := Rendered(n);
                  exit := RolledBack;
                }
              }
            } else if !host.throws(RequestSave, n) {
              n := Saved(n);
              exit := Accepted;
            }
          }
        }
      }
    }
    // finally
    n := n.(heightStyle := AutoHeight);
  }
}
